=== FILE: README.md ===
# Self-introduction card renderer, modelled in Dafny

The program is a single-page editor for a fan "self-introduction card". It
draws onto a 1200 x 675 canvas. First comes the background: a user photo
scaled to cover the canvas, or a placeholder gradient with a hint. Then each
text item is drawn into its fixed slot rectangle. A title item is drawn as
one centred text on a light panel. Every other item gets a dark label band
and a light body band, and its value is wrapped character by character into
the body band by a greedy loop. The form edits an item's label or value
through one update function.

The model covers `src/App.jsx`. Each part below is one Dafny module in its own
file:

- `Geometry` (`geometry.dfy`): the canvas size and integer rectangles, with
  containment and disjointness.
- `Layout` (`layout.dfy`): the slot table with its vertical offset, and the
  fixed band sizes (26-pixel label band, 12/10-pixel body inset, 24-pixel
  line height).
- `Items` (`items.dfy`): the items as an ordered list of (id, item) entries,
  in the order the card iterates them; the starting template; the update.
- `TextWrap` (`text_wrap.dfy`): splitting a value at newlines and the greedy
  wrapping loop, as pure functions. Text measurement is a parameter
  (`Measure`), because font metrics belong to the host.
- `UniformWrap` (`uniform_wrap.dfy`): an independent reference definition of
  wrapping when every character has the same width (runs of `c` characters),
  proved equal to the greedy loop.
- `CoverFit` (`cover_fit.dfy`): the background photo's cover placement, in
  exact real arithmetic.
- `Render` (`render.dfy`): the canvas calls as a list of draw commands. The
  commands of a slot are grouped with its clip rectangle. The body-text loop
  is a `method` with the source's loop structure, proved equal to the pure
  wrapping functions.
- `Options` (`options.dfy`): an optional value, used for the optional photo.

A worked example of the wrap is proved: ten characters at 10 pixels each in
a 100-pixel-wide slot. The body is 76 pixels wide, so the value wraps after
seven characters. With a uniform measure, the number of lines of a paragraph
of `n` characters is `ceil(n / c)`, where `c` is the number of characters
that fit on a line.


## Model

| member | source | states |
|---|---|---|
| Layout.TableInCanvas | src/App.jsx:4-25 | every slot of the layout table lies wholly inside the 1200 x 675 canvas |
| Layout.TableDisjoint | src/App.jsx:7-25 | any two different slots of the layout table do not overlap |
| Layout.TableBandsPositive | src/App.jsx:7-25 | every slot is taller than the 26-pixel label band and wider than the 24 pixels of body inset, so the body band and the wrap width are positive |
| Items.InitialItemsMatchLayout | src/App.jsx:28-42 | the starting items have distinct ids, in declaration order, which are exactly the keys of the layout table; only the first of them is a title |
| Items.UpdateItem | src/App.jsx:50-55 | after an update, the item under the id holds the new field value and keeps its other fields; every other id maps to what it did before; an existing id keeps its position and a new id is appended (where the code iterates it depends on the id's form; see Left out) |
| Items.UpdateKeepsOtherFields | src/App.jsx:53 | editing the label leaves the value and the title flag unchanged, and editing the value leaves the label and the title flag unchanged |
| Items.UpdateKeepsDistinct | src/App.jsx:51-54 | an update never makes an id occur twice |
| TextWrap.Split | src/App.jsx:182 | a value has one more paragraph than it has newlines |
| TextWrap.SplitNewlineFree | src/App.jsx:182 | no paragraph contains a newline |
| TextWrap.JoinSplit | src/App.jsx:182 | joining the paragraphs with newlines gives back the value |
| TextWrap.SplitJoin | src/App.jsx:182 | splitting newline-free paragraphs joined with newlines gives back those paragraphs |
| TextWrap.SplitAtNewline | src/App.jsx:182 | the paragraphs of a + newline + b are those of a followed by those of b |
| TextWrap.ConcatSplit | src/App.jsx:182 | the paragraphs together hold the value's characters in order, less its newlines |
| TextWrap.WrapFromConcat | src/App.jsx:187-199 | from any loop state, the lines still to be emitted, glued together, are the buffer followed by the rest of the paragraph |
| TextWrap.WrapParagraph | src/App.jsx:186-200 | a paragraph yields at least one line, and its lines glued together are exactly the paragraph |
| TextWrap.WrapParagraphBounds | src/App.jsx:186-200 | an empty paragraph yields exactly one empty line; every line of a non-empty paragraph is non-empty and measures within the limit, unless it is a single character |
| TextWrap.WrapParagraphGreedy | src/App.jsx:186-200 | for any measure, every line break is greedy: the next line is non-empty and starts with the character that would have made the previous line measure more than the limit |
| TextWrap.WrapParagraphPrefixesFit | src/App.jsx:186-200 | for any measure, a tentative line that measures more than the limit is never kept: every prefix of two or more characters of every line measures within the limit |
| TextWrap.GreedyLinesUnique | src/App.jsx:186-200 | two line lists with no empty line, only greedy breaks and only fitting prefixes that glue to the same characters are equal |
| TextWrap.WrapParagraphIsUniqueGreedy | src/App.jsx:186-200 | the wrap of a non-empty paragraph is such a greedy line list, and every greedy line list that glues to the paragraph is exactly the wrap |
| TextWrap.GuardIsNonEmptyBuffer | src/App.jsx:192 | in every state the loop reaches, the position guard `i > 0` agrees with "the buffer is non-empty", so both guards wrap alike |
| TextWrap.WrapText | src/App.jsx:182-202 | a value yields at least one line per paragraph, and its lines hold its characters in order, less its newlines |
| TextWrap.WrapEmptyText | src/App.jsx:182-202 | an empty value yields a single empty line |
| TextWrap.WrapTextAtNewline | src/App.jsx:182-202 | paragraphs wrap independently: the lines of a + newline + b are those of a followed by those of b |
| TextWrap.WrapAllAppend | src/App.jsx:185-202 | wrapping two runs of paragraphs gives the lines of the first run followed by those of the second |
| TextWrap.WrapTextGreedy | src/App.jsx:182-202 | for any measure, every break between consecutive lines of a value is greedy except at the first line of a paragraph, and there is one such first line per paragraph |
| TextWrap.WrapTextPrefixesFit | src/App.jsx:182-202 | for any measure, no line of a value has a prefix of two or more characters that measures more than the limit |
| TextWrap.WrapTextFits | src/App.jsx:185-202 | every line of a value is empty (from an empty paragraph), or measures within the limit, or is a single character |
| UniformWrap.UniformWrapParagraph | src/App.jsx:186-200 | when exactly the strings of at most c characters fit, the greedy loop cuts a paragraph into runs of c characters, with only the last run shorter |
| UniformWrap.UniformLineCount | src/App.jsx:186-200 | under such a measure a non-empty paragraph of n characters takes L lines with (L - 1) c < n <= L c, that is ceil(n / c) lines |
| UniformWrap.WrapTenCharacters | src/App.jsx:186-200 | at 10 pixels a character and a 76-pixel limit, "ABCDEFGHIJ" wraps into "ABCDEFG" and "HIJ" |
| UniformWrap.WrapFifteenCharacters | src/App.jsx:186-200 | fifteen such characters take three lines |
| CoverFit.Cover | src/App.jsx:85-99 | the photo is drawn at least as large as the canvas in both dimensions, with its aspect ratio kept and one dimension equal to the canvas; both dimensions equal it exactly when the ratios agree; the overflow is centred |
| CoverFit.CoverIsSmallest | src/App.jsx:85-99 | no smaller size with the photo's proportions covers the canvas |
| CoverFit.CoverForUnique | src/App.jsx:85-99 | only one placement covers, keeps the proportions, meets the canvas in one dimension and is centred |
| CoverFit.CoverDependsOnRatioOnly | src/App.jsx:85-99 | scaling the photo by any positive factor does not change where and how large it is drawn |
| Render.Background | src/App.jsx:83-114 | with a photo, a single image draw that is the cover fit: it covers the canvas, keeps the photo's proportions, meets the canvas in one dimension and is centred (which, by CoverFit.CoverForUnique, determines it); without one, a gradient over the whole canvas and the hint text at its centre |
| Render.PlaceLines | src/App.jsx:183-202 | one text draw per line, in order (the positions are given by Render.PlaceLinesAt) |
| Render.PlaceLinesAt | src/App.jsx:183-202 | the k-th line is drawn at the body's x and k line heights below the body's top |
| Render.DrawParagraph | src/App.jsx:186-201 | the source's inner loop draws exactly the paragraph's wrapped lines, each one line height below the previous one, and leaves the cursor one line height below the last |
| Render.DrawBodyText | src/App.jsx:177-202 | the source's loop over paragraphs draws exactly the value's wrapped lines at successive line positions from the body origin, and leaves the cursor below the last |
| Render.PlaceLinesAppend | src/App.jsx:183-202 | the cursor carries over between paragraphs: the lines of a followed by b are a's lines and then b's, shifted down by a's line count |
| Render.RenderSlot | src/App.jsx:120-205 | one slot's drawing is clipped to the slot's own rectangle; what it draws inside is fixed by Render.TitleSlotDrawsValueOnce, Render.StandardSlotBands and Render.StandardSlotBody |
| Render.TitleSlotDrawsValueOnce | src/App.jsx:139-149 | a title slot draws exactly two commands: a panel filling the slot, then one title text holding the whole value unwrapped at (x + w/2, y + h/2 + 2), which lies inside the slot when h >= 4; no other text is drawn |
| Render.StandardSlotBands | src/App.jsx:152-169 | the label band and the body band tile the slot exactly, and the label is drawn once, inside the label band at (x + 10, y + 14) |
| Render.StandardSlotBody | src/App.jsx:171-202 | after the bands and the label come exactly the value's wrapped lines; the k-th is at (x + 12, y + 36 + 24 k), so the lines move strictly downwards and together hold the value's characters less its newlines |
| Render.WorkedExample | src/App.jsx:177-202 | in a 100-pixel-wide slot at 10 pixels a character, "ABCDEFGHIJ" is drawn as "ABCDEFG" at y + 36 and "HIJ" at y + 60, both at x + 12 |
| Render.RenderItems | src/App.jsx:117-120 | one slot drawing per entry whose id has a slot, in entry order, each clipped to that entry's slot |
| Render.RenderItemsDrawsPlaced | src/App.jsx:117-206 | the k-th slot drawing is the k-th placed entry drawn in its own slot, depending on that entry alone |
| Render.PlacedComplete | src/App.jsx:117-119 | every entry whose id has a slot is among the entries that are drawn |
| Render.SkipWithoutLayout | src/App.jsx:117-119 | an entry whose id has no slot draws nothing and leaves the drawing of the other entries unchanged |
| Render.Render | src/App.jsx:82-206 | a card draws the background for its photo option, then exactly the entries that have a slot, in entry order, each drawn in its own slot as the per-slot drawing prescribes; no entry with a slot is left out, at most one slot is drawn per entry, every slot drawn is a slot of the layout table, and with distinct ids no two drawn slots overlap |
| Render.InitialCard | src/App.jsx:117-119 | the starting items draw all thirteen slots, the title first |

## Left out

- Items.UpdateItem: for an id that is not yet present, the code stores an
  object holding only the edited field, so the other field and the title flag
  are absent. The model stores a blank item with that one field set. The form
  only edits ids of the starting items, so this case does not arise in the
  program. The model also appends a new id at the end of the iteration
  order. The code does so only for ids that are not array indices: it
  iterates with `Object.entries`, which lists integer-like keys such as
  `"7"` first, in numeric order.
- Numbers are idealised as exact reals and unbounded integers. IEEE rounding
  in the cover-fit divisions and in the coordinate sums is not modelled.
- Text measurement is the parameter `Measure`. Fonts, sizes, colours, alpha,
  alignment and baseline are recorded only as the tags `Paint` and
  `TextStyle`.
- A Dafny `char` is a Unicode code point, while the code indexes strings by
  UTF-16 code unit. For characters outside the Basic Multilingual Plane the
  code measures lone surrogates and can break a surrogate pair across two
  lines; that per-code-unit handling is not modelled.
- The clip path's rounded corners (radius 6) are not modelled. A slot's clip
  is its rectangle, and `ctx.save`/`ctx.restore` become the grouping of a
  slot's commands.
- The canvas replaces newlines with spaces inside `fillText`. That text
  shaping is not modelled, so a title containing a newline is drawn as one
  text holding that newline.
- A photo whose width or height is zero is excluded by the `Photo` type. The
  code would divide by zero there.
- Ids are looked up in a Dafny map. Inherited object properties (an id such
  as `toString`) are not modelled; the program's ids are only those of the
  template.
- Reading the uploaded file (lines 57-69), the PNG download (lines 216-225),
  the share button, the form markup and the React state and effect plumbing
  are I/O or user interface. They are not modelled.
- The code uses fixed fonts and a fixed 24-pixel line height; both are
  modelled as constants.

=== FILE: cover_fit.dfy ===
/** Placement of the background photo: scaled, keeping its aspect ratio, so
    that it covers the whole canvas, and centred so that the overflow is
    cropped equally on both sides. Arithmetic is exact (real numbers). */
module CoverFit {
  import Geometry

  const W: real := Geometry.CanvasWidth as real
  const H: real := Geometry.CanvasHeight as real

  /** Where and how large the image is drawn, in canvas pixels. */
  datatype Placement = Placement(x: real, y: real, w: real, h: real)

  /** The image is wider than the canvas in proportion: imgW / imgH > W / H,
      stated without division. */
  predicate WiderThanCanvas(imgW: real, imgH: real)
    requires imgH > 0.0
  {
    imgW * H > imgH * W
  }

  /** Cover fit of an imgW x imgH image. A comparatively wide image is fitted
      to the canvas height and overflows in width; any other is fitted to the
      canvas width and overflows in height. */
  function Cover(imgW: real, imgH: real): (d: Placement)
    requires imgW > 0.0 && imgH > 0.0
    ensures d.w >= W && d.h >= H
    ensures d.w * imgH == d.h * imgW
    ensures d.w == W || d.h == H
    ensures d.w == W && d.h == H <==> imgW * H == imgH * W
    ensures d.x == (W - d.w) / 2.0 <= 0.0
    ensures d.y == (H - d.h) / 2.0 <= 0.0
  {
    var imgRatio := imgW / imgH;
    var canvasRatio := W / H;
    assert imgRatio > canvasRatio <==> WiderThanCanvas(imgW, imgH) by {
      assert imgRatio * imgH == imgW;
    }
    if imgRatio > canvasRatio then
      var drawW := imgW * (H / imgH);
      assert drawW * imgH == H * imgW;
      assert drawW > W by {
        assert drawW * imgH > W * imgH;
      }
      Placement((W - drawW) / 2.0, 0.0, drawW, H)
    else
      var drawH := imgH * (W / imgW);
      assert drawH * imgW == W * imgH;
      assert drawH >= H by {
        assert drawH * imgW >= H * imgW;
      }
      assert drawH == H <==> imgW * H == imgH * W;
      Placement(0.0, (H - drawH) / 2.0, W, drawH)
  }

  /** No smaller aspect-preserving size covers the canvas: any w x h with the
      image's proportions that covers the canvas is at least as large as the
      cover fit in both dimensions. */
  lemma CoverIsSmallest(imgW: real, imgH: real, w: real, h: real)
    requires imgW > 0.0 && imgH > 0.0
    requires w * imgH == h * imgW
    requires w >= W && h >= H
    ensures Cover(imgW, imgH).w <= w && Cover(imgW, imgH).h <= h
  {
    ProportionalCover(imgW, imgH, Cover(imgW, imgH), w, h);
  }

  /** Scaling both sides of an image by k > 0 keeps the same proportions. */
  lemma ScaledProportion(w: real, h: real, imgW: real, imgH: real, k: real)
    requires k > 0.0
    ensures w * (k * imgH) == h * (k * imgW) <==> w * imgH == h * imgW
  {
    assert w * (k * imgH) == k * (w * imgH);
    assert h * (k * imgW) == k * (h * imgW);
  }

  /** `d` is a cover fit of an imgW x imgH image: it covers the canvas, keeps
      the image's proportions, meets the canvas in one dimension and is
      centred. */
  predicate CoverFor(imgW: real, imgH: real, d: Placement) {
    && d.w >= W && d.h >= H
    && d.w * imgH == d.h * imgW
    && (d.w == W || d.h == H)
    && d.x == (W - d.w) / 2.0 && d.y == (H - d.h) / 2.0
  }

  /** There is only one cover fit. */
  lemma CoverForUnique(imgW: real, imgH: real, a: Placement, b: Placement)
    requires imgW > 0.0 && imgH > 0.0
    requires CoverFor(imgW, imgH, a) && CoverFor(imgW, imgH, b)
    ensures a == b
  {
    assert a.w <= b.w && a.h <= b.h by {
      ProportionalCover(imgW, imgH, a, b.w, b.h);
    }
    assert b.w <= a.w && b.h <= a.h by {
      ProportionalCover(imgW, imgH, b, a.w, a.h);
    }
  }

  /** A cover fit is no larger than any proportional size covering the canvas. */
  lemma ProportionalCover(imgW: real, imgH: real, d: Placement, w: real, h: real)
    requires imgW > 0.0 && imgH > 0.0
    requires CoverFor(imgW, imgH, d)
    requires w * imgH == h * imgW
    requires w >= W && h >= H
    ensures d.w <= w && d.h <= h
  {
    if d.w == W {
      assert d.h * imgW == W * imgH;
      assert d.h * imgW <= h * imgW by {
        assert W * imgH <= w * imgH;
      }
    } else {
      assert d.w * imgH == H * imgW;
      assert d.w * imgH <= w * imgH by {
        assert H * imgW <= h * imgW;
      }
    }
  }

  /** The placement depends only on the image's aspect ratio: scaling the
      image by any k > 0 leaves it unchanged. */
  lemma CoverDependsOnRatioOnly(imgW: real, imgH: real, k: real)
    requires imgW > 0.0 && imgH > 0.0 && k > 0.0
    ensures Cover(k * imgW, k * imgH) == Cover(imgW, imgH)
  {
    var a, b := Cover(k * imgW, k * imgH), Cover(imgW, imgH);
    CoverIsCoverFor(k * imgW, k * imgH);
    ScaledCoverFor(imgW, imgH, k, a);
    CoverIsCoverFor(imgW, imgH);
    CoverForUnique(imgW, imgH, a, b);
  }

  /** Cover computes a cover fit. */
  lemma CoverIsCoverFor(imgW: real, imgH: real)
    requires imgW > 0.0 && imgH > 0.0
    ensures CoverFor(imgW, imgH, Cover(imgW, imgH))
  {
  }

  /** A cover fit of an image is one of the image scaled by k > 0. */
  lemma ScaledCoverFor(imgW: real, imgH: real, k: real, d: Placement)
    requires k > 0.0
    requires CoverFor(k * imgW, k * imgH, d)
    ensures CoverFor(imgW, imgH, d)
  {
    ScaledProportion(d.w, d.h, imgW, imgH, k);
  }
}

=== FILE: geometry.dfy ===
/** The fixed 1200 x 675 card canvas and the axis-aligned rectangles that
    the layout table places on it. */
module Geometry {

  /** Canvas size in logical pixels (App.jsx, `width` and `height` of drawCanvas). */
  const CanvasWidth: int := 1200
  const CanvasHeight: int := 675

  /** A slot rectangle: top-left corner and size, in canvas pixels. */
  datatype Rect = Rect(x: int, y: int, w: int, h: int)

  /** The rectangle lies within [0, CanvasWidth] x [0, CanvasHeight]. */
  predicate InCanvas(r: Rect) {
    0 <= r.x && 0 <= r.y && 0 < r.w && 0 < r.h
    && r.x + r.w <= CanvasWidth && r.y + r.h <= CanvasHeight
  }

  /** The two rectangles share no interior point. */
  predicate Disjoint(a: Rect, b: Rect) {
    a.x + a.w <= b.x || b.x + b.w <= a.x || a.y + a.h <= b.y || b.y + b.h <= a.y
  }

  /** The point (px, py) lies in the closed rectangle. */
  predicate Contains(r: Rect, px: real, py: real) {
    r.x as real <= px <= (r.x + r.w) as real && r.y as real <= py <= (r.y + r.h) as real
  }
}

=== FILE: items.dfy ===
/** The text items of the card and the form's edit operation on them.
    The item set is an ordered list of (slot id, item) entries, in the order
    in which the card iterates them. */
module Items {
  import opened Options
  import Layout

  /** One card entry: its header label (`caption`; `label` is reserved in Dafny), its text, and whether it is the title. */
  datatype Item = Item(caption: string, value: string, isTitle: bool)

  /** The two fields the form can edit. */
  datatype Field = Label | Value

  datatype Entry = Entry(id: string, item: Item)

  /** An item with no label, no text and no title flag. */
  const Blank: Item := Item("", "", false)

  /** The template's starting items, in declaration order. */
  const InitialItems: seq<Entry> := [
    Entry("title",   Item("", "自己紹介カード", true)),
    Entry("name",    Item("お名前", "", false)),
    Entry("oshi1",   Item("最推し", "", false)),
    Entry("oshi2_1", Item("推し", "", false)),
    Entry("oshi2_2", Item("他Vの推し", "", false)),
    Entry("hobby",   Item("趣味や好きなゲーム", "", false)),
    Entry("love",    Item("推しの好きなところ", "", false)),
    Entry("song",    Item("推し＆ホロで好きな曲", "", false)),
    Entry("collab",  Item("好きなコラボ", "", false)),
    Entry("member",  Item("メンシ加入者", "", false)),
    Entry("history", Item("推し歴", "", false)),
    Entry("age",     Item("年齢", "", false)),
    Entry("free",    Item("フリースペース", "", false))
  ]

  /** The ids of the entries, in order. */
  function Ids(items: seq<Entry>): (ids: seq<string>)
    ensures |ids| == |items|
    ensures forall k :: 0 <= k < |items| ==> ids[k] == items[k].id
  {
    seq(|items|, k requires 0 <= k < |items| => items[k].id)
  }

  /** No id occurs twice, as for the keys of an object. */
  predicate DistinctIds(items: seq<Entry>) {
    forall j, k :: 0 <= j < k < |items| ==> items[j].id != items[k].id
  }

  /** The item stored under `id`, if any. */
  function Get(items: seq<Entry>, id: string): (r: Option<Item>)
    ensures r.None? <==> id !in Ids(items)
  {
    if items == [] then None
    else if items[0].id == id then Some(items[0].item)
    else Get(items[1..], id)
  }

  /** `item` with one field replaced. */
  function SetField(item: Item, field: Field, v: string): Item {
    match field
    case Label => item.(caption := v)
    case Value => item.(value := v)
  }

  /** The form's edit: store `v` in field `field` of the item under `id`.
      An existing entry keeps its position; a new id is appended at the end. */
  function UpdateItem(items: seq<Entry>, id: string, field: Field, v: string): (r: seq<Entry>)
    ensures Get(r, id) == Some(SetField(Get(items, id).GetOr(Blank), field, v))
    ensures forall other :: other != id ==> Get(r, other) == Get(items, other)
    ensures id in Ids(items) ==> Ids(r) == Ids(items)
    ensures id !in Ids(items) ==> Ids(r) == Ids(items) + [id]
  {
    if items == [] then [Entry(id, SetField(Blank, field, v))]
    else
      IdsCons(items[0], items[1..]);
      assert items == [items[0]] + items[1..];
      if items[0].id == id then
        IdsCons(Entry(id, SetField(items[0].item, field, v)), items[1..]);
        [Entry(id, SetField(items[0].item, field, v))] + items[1..]
      else
        var rest := UpdateItem(items[1..], id, field, v);
        IdsCons(items[0], rest);
        assert ([items[0]] + rest)[1..] == rest;
        assert [items[0].id] + (Ids(items[1..]) + [id]) == [items[0].id] + Ids(items[1..]) + [id];
        [items[0]] + rest
  }

  /** The ids of an entry followed by others. */
  lemma IdsCons(e: Entry, rest: seq<Entry>)
    ensures Ids([e] + rest) == [e.id] + Ids(rest)
  {
  }

  /** Editing one field leaves the other field and the title flag of that
      item as they were. */
  lemma UpdateKeepsOtherFields(items: seq<Entry>, id: string, field: Field, v: string)
    requires id in Ids(items)
    ensures var before := Get(items, id).value;
            var after := Get(UpdateItem(items, id, field, v), id).value;
            && after.isTitle == before.isTitle
            && (field == Label ==> after.caption == v && after.value == before.value)
            && (field == Value ==> after.value == v && after.caption == before.caption)
  {
  }

  /** An update keeps the entry ids distinct. */
  lemma {:induction false} UpdateKeepsDistinct(items: seq<Entry>, id: string, field: Field, v: string)
    requires DistinctIds(items)
    ensures DistinctIds(UpdateItem(items, id, field, v))
  {
    var r := UpdateItem(items, id, field, v);
    var ids := Ids(r);
    forall j, k | 0 <= j < k < |r|
      ensures r[j].id != r[k].id
    {
      if id in Ids(items) {
        assert ids == Ids(items);
        assert ids[j] == items[j].id && ids[k] == items[k].id;
      } else {
        assert ids == Ids(items) + [id];
        if k < |items| {
          assert ids[j] == items[j].id && ids[k] == items[k].id;
        } else {
          assert ids[k] == id;
          assert ids[j] == Ids(items)[j];
        }
      }
    }
  }

  /** The ids of the starting items, in order. */
  const InitialIds: seq<string> :=
    ["title", "name", "oshi1", "oshi2_1", "oshi2_2", "hobby",
     "love", "song", "collab", "member", "history", "age", "free"]

  /** The starting entries carry the layout's ids, in declaration order. */
  lemma InitialIdsInOrder()
    ensures Ids(InitialItems) == InitialIds
  {
    var ids := Ids(InitialItems);
    forall k | 0 <= k < |InitialIds| ensures ids[k] == InitialIds[k] {
      assert ids[k] == InitialItems[k].id;
    }
  }

  /** No id occurs twice among the starting ids. */
  lemma InitialIdsDistinct()
    ensures forall j, k :: 0 <= j < k < |InitialIds| ==> InitialIds[j] != InitialIds[k]
  {
  }

  /** The starting ids are exactly the keys of the layout table. */
  lemma InitialIdsAreTableKeys()
    ensures forall id :: id in InitialIds <==> id in Layout.Table
  {
  }

  /** The starting items have distinct ids, exactly those of the layout
      table, and only the first of them is a title. */
  lemma InitialItemsMatchLayout()
    ensures Ids(InitialItems) == InitialIds
    ensures DistinctIds(InitialItems)
    ensures forall id :: id in Ids(InitialItems) <==> id in Layout.Table
    ensures forall k :: 0 <= k < |InitialItems| ==> (InitialItems[k].item.isTitle <==> k == 0)
  {
    InitialIdsInOrder();
    InitialIdsDistinct();
    InitialIdsAreTableKeys();
    var ids := Ids(InitialItems);
    forall j, k | 0 <= j < k < |InitialItems| ensures InitialItems[j].id != InitialItems[k].id {
      assert InitialItems[j].id == ids[j] && InitialItems[k].id == ids[k];
    }
  }
}

=== FILE: layout.dfy ===
/** The card template: where each slot sits on the canvas, and the fixed
    bands into which a standard slot is divided. */
module Layout {
  import opened Geometry

  /** Vertical shift applied to every slot of the template. */
  const YOffset: int := 30

  /** Slot id -> rectangle. An id with no entry has no place on the card. */
  const Table: map<string, Rect> := map[
    "title"   := Rect(40,  20 + YOffset, 340, 50),
    // left column
    "name"    := Rect(40,  90 + YOffset, 340, 80),
    "oshi1"   := Rect(40, 180 + YOffset, 340, 80),
    "oshi2_1" := Rect(40, 270 + YOffset, 165, 100),
    "oshi2_2" := Rect(215, 270 + YOffset, 165, 100),
    "hobby"   := Rect(40, 380 + YOffset, 340, 120),
    // right column
    "love"    := Rect(820,  20 + YOffset, 340, 80),
    "song"    := Rect(820, 110 + YOffset, 340, 100),
    "collab"  := Rect(820, 220 + YOffset, 165, 80),
    "member"  := Rect(995, 220 + YOffset, 165, 80),
    "history" := Rect(820, 310 + YOffset, 165, 80),
    "age"     := Rect(995, 310 + YOffset, 165, 80),
    "free"    := Rect(820, 400 + YOffset, 340, 120)
  ]

  /** Height of the label band at the top of a standard slot. */
  const HeaderHeight: real := 26.0
  /** Horizontal inset of the body text from the slot's left edge. */
  const BodyInsetX: real := 12.0
  /** Gap between the label band and the first body line. */
  const BodyInsetY: real := 10.0
  /** Vertical advance from one body line to the next. */
  const LineHeight: real := 24.0

  /** Widest a body line may be measured before it is broken: the slot width
      less the inset on both sides. */
  function MaxBodyWidth(r: Rect): real {
    r.w as real - 2.0 * BodyInsetX
  }

  /** Every slot of the template lies on the canvas. */
  lemma TableInCanvas()
    ensures forall id :: id in Table ==> InCanvas(Table[id])
  {
  }

  /** No two slots of the template overlap. */
  lemma TableDisjoint()
    ensures forall a, b :: a in Table && b in Table && a != b ==> Disjoint(Table[a], Table[b])
  {
  }

  /** Every slot is tall enough for a body band below the label band and wide
      enough for a positive wrapping width. */
  lemma TableBandsPositive()
    ensures forall id :: id in Table ==> Table[id].h as real > HeaderHeight && MaxBodyWidth(Table[id]) > 0.0
  {
  }
}

=== FILE: options.dfy ===
/** An optional value: the model's stand-in for a JavaScript lookup that may
    come back `undefined`. */
module Options {

  datatype Option<+T> = None | Some(value: T) {

    /** The wrapped value, or `default` when there is none. */
    function GetOr(default: T): T {
      match this
      case Some(v) => v
      case None => default
    }
  }
}

=== FILE: render.dfy ===
/** Composition of the card: the background, then each item in its slot.
    Canvas calls are abstracted as a list of draw commands; the commands of
    a slot are grouped with the slot's rectangle, which clips them (the
    rounded corners of the clip path are not modelled). */
module Render {
  import opened Options
  import opened Geometry
  import Layout
  import opened Items
  import opened TextWrap
  import CoverFit
  import UniformWrap

  /** How a filled rectangle is painted. */
  datatype Paint = CanvasGradient | TitlePanel | HeaderBand | BodyBand

  /** Font, colour and alignment of a text draw. */
  datatype TextStyle = PlaceholderText | TitleText | LabelText | BodyText

  datatype Cmd =
    | DrawImage(x: real, y: real, w: real, h: real)
    | FillRect(x: real, y: real, w: real, h: real, paint: Paint)
    | FillText(text: string, x: real, y: real, style: TextStyle)

  /** The drawing of one slot, clipped to its rectangle. */
  datatype SlotDraw = SlotDraw(clip: Rect, cmds: seq<Cmd>)

  /** One complete rendering of the card. */
  datatype Frame = Frame(background: seq<Cmd>, slots: seq<SlotDraw>)

  /** Pixel size of a decoded background photo. */
  datatype Image = Image(width: real, height: real)
  type Photo = img: Image | img.width > 0.0 && img.height > 0.0 witness Image(1.0, 1.0)

  /** The hint drawn over the placeholder background. */
  const PlaceholderMessage: string := "背景画像をアップロードしてください"


  // ---------------------------------------------------------------------
  // Background
  // ---------------------------------------------------------------------

  /** The background: the photo, cover-fitted; without one, a diagonal
      gradient over the whole canvas with a hint in its centre. The photo's
      draw is a cover fit, and by CoverFit.CoverForUnique the only one. */
  function Background(bg: Option<Photo>): (cmds: seq<Cmd>)
    ensures bg.Some? ==> |cmds| == 1 && cmds[0].DrawImage?
    ensures bg.Some? ==> var d := cmds[0];
              && d.x <= 0.0 && d.y <= 0.0
              && d.x + d.w >= CoverFit.W && d.y + d.h >= CoverFit.H
              && d.w * bg.value.height == d.h * bg.value.width
    ensures bg.Some? ==>
              CoverFit.CoverFor(bg.value.width, bg.value.height,
                                CoverFit.Placement(cmds[0].x, cmds[0].y, cmds[0].w, cmds[0].h))
    ensures bg.None? ==>
              && |cmds| == 2
              && cmds[0] == FillRect(0.0, 0.0, CoverFit.W, CoverFit.H, CanvasGradient)
              && cmds[1].FillText? && cmds[1].text == PlaceholderMessage
              && cmds[1].x == CoverFit.W / 2.0 && cmds[1].y == CoverFit.H / 2.0
  {
    match bg
    case Some(img) =>
      var d := CoverFit.Cover(img.width, img.height);
      [DrawImage(d.x, d.y, d.w, d.h)]
    case None =>
      [FillRect(0.0, 0.0, CoverFit.W, CoverFit.H, CanvasGradient),
       FillText(PlaceholderMessage, CoverFit.W / 2.0, CoverFit.H / 2.0, PlaceholderText)]
  }

  // ---------------------------------------------------------------------
  // Body text
  // ---------------------------------------------------------------------

  /** The lines drawn one under the other, the first at (x, y), each next
      one a line height lower. */
  function PlaceLines(lines: seq<string>, x: real, y: real): (cmds: seq<Cmd>)
    ensures |cmds| == |lines|
  {
    if lines == [] then []
    else [FillText(lines[0], x, y, BodyText)] + PlaceLines(lines[1..], x, y + Layout.LineHeight)
  }

  /** The k-th line is drawn at (x, y + k * line height). */
  lemma {:induction false} PlaceLinesAt(lines: seq<string>, x: real, y: real)
    ensures forall k :: 0 <= k < |lines| ==>
              PlaceLines(lines, x, y)[k] == FillText(lines[k], x, y + Layout.LineHeight * k as real, BodyText)
  {
    if lines != [] {
      PlaceLinesAt(lines[1..], x, y + Layout.LineHeight);
      var rest := PlaceLines(lines[1..], x, y + Layout.LineHeight);
      forall k | 1 <= k < |lines|
        ensures PlaceLines(lines, x, y)[k] == FillText(lines[k], x, y + Layout.LineHeight * k as real, BodyText)
      {
        assert PlaceLines(lines, x, y)[k] == rest[k - 1];
        assert y + Layout.LineHeight + Layout.LineHeight * (k - 1) as real == y + Layout.LineHeight * k as real;
      }
    }
  }

  lemma PlaceLinesSnoc(lines: seq<string>, line: string, x: real, y: real)
    ensures PlaceLines(lines + [line], x, y)
            == PlaceLines(lines, x, y) + [FillText(line, x, y + Layout.LineHeight * |lines| as real, BodyText)]
  {
    var a := PlaceLines(lines + [line], x, y);
    var b := PlaceLines(lines, x, y) + [FillText(line, x, y + Layout.LineHeight * |lines| as real, BodyText)];
    PlaceLinesAt(lines + [line], x, y);
    PlaceLinesAt(lines, x, y);
    assert |a| == |b|;
    forall k | 0 <= k < |a| ensures a[k] == b[k] {
      assert (lines + [line])[k] == if k < |lines| then lines[k] else line;
    }
  }

  lemma PlaceLinesAppend(a: seq<string>, b: seq<string>, x: real, y: real)
    ensures PlaceLines(a + b, x, y) == PlaceLines(a, x, y) + PlaceLines(b, x, y + Layout.LineHeight * |a| as real)
  {
    var l := PlaceLines(a + b, x, y);
    var r := PlaceLines(a, x, y) + PlaceLines(b, x, y + Layout.LineHeight * |a| as real);
    PlaceLinesAt(a + b, x, y);
    PlaceLinesAt(a, x, y);
    PlaceLinesAt(b, x, y + Layout.LineHeight * |a| as real);
    assert |l| == |r|;
    forall k | 0 <= k < |l| ensures l[k] == r[k] {
      if k < |a| {
        assert (a + b)[k] == a[k];
      } else {
        assert (a + b)[k] == b[k - |a|];
        assert y + Layout.LineHeight * k as real == y + Layout.LineHeight * |a| as real + Layout.LineHeight * (k - |a|) as real;
      }
    }
  }

  /** The inner loop of the body text: one paragraph, character by
      character, with the vertical cursor starting at `startY`. A line is
      drawn, and the cursor moved down one line height, whenever the next
      character would overflow the buffer, and once more at the end. It draws
      exactly the paragraph's wrapped lines one under the other and leaves
      the cursor just below the last. */
  method DrawParagraph(line: string, textX: real, startY: real, maxW: real, measure: Measure)
    returns (cmds: seq<Cmd>, endY: real)
    ensures cmds == PlaceLines(WrapParagraph(line, measure, maxW), textX, startY)
    ensures endY == startY + Layout.LineHeight * |cmds| as real
  {
    cmds := [];
    var currentY := startY;
    ghost var emitted: seq<string> := [];
    var currentLine := "";
    var i := 0;
    while i < |line|
      invariant 0 <= i <= |line|
      invariant emitted + WrapFrom(line, i, currentLine, measure, maxW) == WrapParagraph(line, measure, maxW)
      invariant cmds == PlaceLines(emitted, textX, startY)
      invariant currentY == startY + Layout.LineHeight * |cmds| as real
    {
      var ch := line[i];
      var testLine := currentLine + [ch];
      if measure(testLine) > maxW && i > 0 {
        WrapFromBreaks(line, i, currentLine, measure, maxW);
        AppendAssoc(emitted, [currentLine], WrapFrom(line, i + 1, [ch], measure, maxW));
        assert currentY == startY + Layout.LineHeight * |emitted| as real;
        PlaceLinesSnoc(emitted, currentLine, textX, startY);
        cmds := cmds + [FillText(currentLine, textX, currentY, BodyText)];
        emitted := emitted + [currentLine];
        currentLine := [ch];
        currentY := currentY + Layout.LineHeight;
      } else {
        WrapFromExtends(line, i, currentLine, measure, maxW);
        currentLine := testLine;
      }
      i := i + 1;
    }
    assert WrapFrom(line, i, currentLine, measure, maxW) == [currentLine];
    PlaceLinesSnoc(emitted, currentLine, textX, startY);
    cmds := cmds + [FillText(currentLine, textX, currentY, BodyText)];
    endY := currentY + Layout.LineHeight;
  }

  /** The body-text loop of a standard slot: the paragraphs of `value` one
      after the other, the cursor carried on from each to the next. It draws
      exactly the wrapped lines of `value`, the k-th of them at
      (textX, textY + k * line height), and leaves the cursor just below the
      last. */
  method DrawBodyText(value: string, textX: real, textY: real, maxW: real, measure: Measure)
    returns (cmds: seq<Cmd>, endY: real)
    ensures cmds == PlaceLines(WrapText(value, measure, maxW), textX, textY)
    ensures endY == textY + Layout.LineHeight * |cmds| as real
  {
    var paragraphs := Split(value);
    cmds := [];
    var currentY := textY;
    var j := 0;
    while j < |paragraphs|
      invariant 0 <= j <= |paragraphs|
      invariant cmds == PlaceLines(WrapAll(paragraphs[..j], measure, maxW), textX, textY)
      invariant currentY == textY + Layout.LineHeight * |cmds| as real
    {
      var drawn, nextY := DrawParagraph(paragraphs[j], textX, currentY, maxW, measure);
      NextParagraph(paragraphs, j, measure, maxW, textX, textY, cmds, drawn, currentY);
      cmds := cmds + drawn;
      currentY := nextY;
      j := j + 1;
    }
    assert paragraphs[..j] == paragraphs;
    endY := currentY;
  }

  /** Drawing paragraph j below the lines of the first j paragraphs, from
      one line height below the last of them, draws the lines of the first
      j + 1 paragraphs. */
  lemma NextParagraph(ps: seq<string>, j: nat, measure: Measure, maxW: real, x: real, y: real,
                      cmds: seq<Cmd>, drawn: seq<Cmd>, nextY: real)
    requires j < |ps|
    requires cmds == PlaceLines(WrapAll(ps[..j], measure, maxW), x, y)
    requires nextY == y + Layout.LineHeight * |cmds| as real
    requires drawn == PlaceLines(WrapParagraph(ps[j], measure, maxW), x, nextY)
    ensures cmds + drawn == PlaceLines(WrapAll(ps[..j + 1], measure, maxW), x, y)
  {
    assert ps[..j + 1] == ps[..j] + [ps[j]];
    WrapAllSnoc(ps[..j], ps[j], measure, maxW);
    PlaceLinesAppend(WrapAll(ps[..j], measure, maxW), WrapParagraph(ps[j], measure, maxW), x, y);
  }

  // ---------------------------------------------------------------------
  // Slots
  // ---------------------------------------------------------------------

  /** The texts of the text draws among `cmds`, in order. */
  function Texts(cmds: seq<Cmd>): seq<string> {
    if cmds == [] then []
    else (if cmds[0].FillText? then [cmds[0].text] else []) + Texts(cmds[1..])
  }

  /** One item drawn in its slot rectangle. A title fills the slot with a
      panel and draws its value once, centred. Any other item gets a label
      band along the top, a body band below it, its label in the label band
      and its value wrapped into the body band. */
  function RenderSlot(r: Rect, item: Item, measure: Measure): (d: SlotDraw)
    ensures d.clip == r
  {
    var x, y, w, h := r.x as real, r.y as real, r.w as real, r.h as real;
    if item.isTitle then
      SlotDraw(r, [FillRect(x, y, w, h, TitlePanel),
                   FillText(item.value, x + w / 2.0, y + h / 2.0 + 2.0, TitleText)])
    else
      var textX := x + Layout.BodyInsetX;
      var textY := y + Layout.HeaderHeight + Layout.BodyInsetY;
      SlotDraw(r, [FillRect(x, y, w, Layout.HeaderHeight, HeaderBand),
                   FillRect(x, y + Layout.HeaderHeight, w, h - Layout.HeaderHeight, BodyBand),
                   FillText(item.caption, x + 10.0, y + Layout.HeaderHeight / 2.0 + 1.0, LabelText)]
                  + PlaceLines(WrapText(item.value, measure, Layout.MaxBodyWidth(r)), textX, textY))
  }

  /** A title is drawn as exactly one text, its whole value unwrapped, at the
      centre of the slot (2 pixels below it), over a panel filling the slot. */
  lemma TitleSlotDrawsValueOnce(r: Rect, item: Item, measure: Measure)
    requires item.isTitle
    requires 0 < r.w && 0 < r.h
    ensures var d := RenderSlot(r, item, measure);
            && Texts(d.cmds) == [item.value]
            && |d.cmds| == 2
            && d.cmds[0] == FillRect(r.x as real, r.y as real, r.w as real, r.h as real, TitlePanel)
            && d.cmds[1] == FillText(item.value, r.x as real + r.w as real / 2.0,
                                     r.y as real + r.h as real / 2.0 + 2.0, TitleText)
            && d.cmds[1].x == r.x as real + r.w as real / 2.0
            && d.cmds[1].y == r.y as real + r.h as real / 2.0 + 2.0
            && (r.h >= 4 ==> Contains(r, d.cmds[1].x, d.cmds[1].y))
  {
    var d := RenderSlot(r, item, measure);
    assert d.cmds[1..] == [d.cmds[1]] && d.cmds[1..][1..] == [];
    assert Texts(d.cmds[1..]) == [item.value] + Texts([]);
  }

  /** A standard slot: the label band is the top HeaderHeight pixels and the
      body band the rest, so together they tile the slot exactly; the label
      is drawn once, inside the label band. */
  lemma StandardSlotBands(r: Rect, item: Item, measure: Measure)
    requires !item.isTitle
    requires r.h as real > Layout.HeaderHeight && r.w > 10
    ensures var d := RenderSlot(r, item, measure);
            var (x, y) := (r.x as real, r.y as real);
            && d.cmds[0] == FillRect(x, y, r.w as real, Layout.HeaderHeight, HeaderBand)
            && d.cmds[1] == FillRect(x, y + Layout.HeaderHeight, r.w as real, r.h as real - Layout.HeaderHeight, BodyBand)
            && d.cmds[0].h + d.cmds[1].h == r.h as real && d.cmds[1].h > 0.0
            && d.cmds[2] == FillText(item.caption, x + 10.0, y + Layout.HeaderHeight / 2.0 + 1.0, LabelText)
            && Contains(Rect(r.x, r.y, r.w, 26), d.cmds[2].x, d.cmds[2].y)
  {
  }

  /** A standard slot's value: after the bands and the label come exactly the
      wrapped lines of the value, which together hold every character of the
      value but its newlines; the k-th line is drawn at
      (x + 12, y + 26 + 10 + 24 k), so the lines move strictly downwards. */
  lemma StandardSlotBody(r: Rect, item: Item, measure: Measure)
    requires !item.isTitle
    ensures var d := RenderSlot(r, item, measure);
            var lines := WrapText(item.value, measure, Layout.MaxBodyWidth(r));
            var body := d.cmds[3..];
            && |body| == |lines|
            && Concat(lines) == StripNewlines(item.value)
            && (forall k :: 0 <= k < |body| ==>
                  body[k] == FillText(lines[k], (r.x + 12) as real, (r.y + 36 + 24 * k) as real, BodyText))
            && (forall j, k :: 0 <= j < k < |body| ==> body[j].y < body[k].y)
  {
    var d := RenderSlot(r, item, measure);
    var lines := WrapText(item.value, measure, Layout.MaxBodyWidth(r));
    var body := d.cmds[3..];
    var x0, y0 := r.x as real + 12.0, r.y as real + Layout.HeaderHeight + 10.0;
    assert body == PlaceLines(lines, x0, y0);
    PlaceLinesAt(lines, x0, y0);
  }

  // ---------------------------------------------------------------------
  // The card
  // ---------------------------------------------------------------------

  /** The entries that have a slot in `layout`, in order. */
  function Placed(layout: map<string, Rect>, items: seq<Entry>): (ps: seq<Entry>)
    ensures |ps| <= |items|
    ensures forall k :: 0 <= k < |ps| ==> ps[k] in items && ps[k].id in layout
  {
    if items == [] then []
    else
      var pr := Placed(layout, items[1..]);
      assert forall k :: 0 <= k < |pr| ==> pr[k] in items[1..];
      (if items[0].id in layout then [items[0]] else []) + pr
  }

  /** Entries that all have a slot are all placed. */
  lemma {:induction false} PlacedAll(layout: map<string, Rect>, items: seq<Entry>)
    requires forall k :: 0 <= k < |items| ==> items[k].id in layout
    ensures Placed(layout, items) == items
  {
    if items != [] {
      PlacedAll(layout, items[1..]);
      assert [items[0]] + items[1..] == items;
    }
  }

  /** Every entry with a slot in `layout` drawn in that slot, in the order of
      the entries; an entry whose id has no slot is skipped. */
  function RenderItems(layout: map<string, Rect>, items: seq<Entry>, measure: Measure): (slots: seq<SlotDraw>)
    ensures var ps := Placed(layout, items);
            && |slots| == |ps|
            && forall k :: 0 <= k < |slots| ==> ps[k].id in layout && slots[k].clip == layout[ps[k].id]
  {
    if items == [] then []
    else
      var rest := RenderItems(layout, items[1..], measure);
      var ps, pr := Placed(layout, items), Placed(layout, items[1..]);
      if items[0].id in layout then
        var slots := [RenderSlot(layout[items[0].id], items[0].item, measure)] + rest;
        assert ps == [items[0]] + pr;
        assert slots[1..] == rest && ps[1..] == pr;
        slots
      else
        assert ps == pr;
        rest
  }

  /** The k-th slot drawn is the k-th placed entry, drawn in its own slot:
      what an entry draws depends on that entry alone. */
  lemma {:induction false} RenderItemsDrawsPlaced(layout: map<string, Rect>, items: seq<Entry>, measure: Measure)
    ensures forall k :: 0 <= k < |RenderItems(layout, items, measure)| ==>
              RenderItems(layout, items, measure)[k]
              == RenderSlot(layout[Placed(layout, items)[k].id], Placed(layout, items)[k].item, measure)
  {
    if items != [] {
      RenderItemsDrawsPlaced(layout, items[1..], measure);
      var rest := RenderItems(layout, items[1..], measure);
      var ps, pr := Placed(layout, items), Placed(layout, items[1..]);
      var slots := RenderItems(layout, items, measure);
      if items[0].id in layout {
        assert ps == [items[0]] + pr;
        assert slots == [RenderSlot(layout[items[0].id], items[0].item, measure)] + rest;
        forall k | 0 <= k < |slots|
          ensures slots[k] == RenderSlot(layout[ps[k].id], ps[k].item, measure)
        {
          if k > 0 {
            assert slots[k] == rest[k - 1] && ps[k] == pr[k - 1];
            assert rest[k - 1] == RenderSlot(layout[pr[k - 1].id], pr[k - 1].item, measure);
          } else {
            assert ps[0] == items[0];
          }
        }
      } else {
        assert ps == pr && slots == rest;
      }
    }
  }

  lemma {:induction false} RenderItemsAppend(layout: map<string, Rect>, a: seq<Entry>, b: seq<Entry>, measure: Measure)
    ensures RenderItems(layout, a + b, measure) == RenderItems(layout, a, measure) + RenderItems(layout, b, measure)
  {
    if a != [] {
      assert (a + b)[1..] == a[1..] + b;
      RenderItemsAppend(layout, a[1..], b, measure);
    } else {
      assert a + b == b;
    }
  }

  lemma RenderItemsSkipOne(layout: map<string, Rect>, e: Entry, measure: Measure)
    requires e.id !in layout
    ensures RenderItems(layout, [e], measure) == []
  {
    assert [e][1..] == [];
  }

  /** An entry whose id has no slot draws nothing and leaves the drawing of
      the other entries as it was. */
  lemma SkipWithoutLayout(layout: map<string, Rect>, a: seq<Entry>, e: Entry, b: seq<Entry>, measure: Measure)
    requires e.id !in layout
    ensures RenderItems(layout, a + [e] + b, measure) == RenderItems(layout, a, measure) + RenderItems(layout, b, measure)
  {
    RenderItemsAppend(layout, a + [e], b, measure);
    RenderItemsAppend(layout, a, [e], measure);
    RenderItemsSkipOne(layout, e, measure);
    var ra := RenderItems(layout, a, measure);
    assert ra + [] == ra;
  }

  /** No entry with a slot is dropped: each is among the placed entries. */
  lemma {:induction false} PlacedComplete(layout: map<string, Rect>, items: seq<Entry>)
    ensures forall e :: e in items && e.id in layout ==> e in Placed(layout, items)
  {
    if items != [] {
      PlacedComplete(layout, items[1..]);
      var ps, pr := Placed(layout, items), Placed(layout, items[1..]);
      assert ps == (if items[0].id in layout then [items[0]] else []) + pr;
      assert items == [items[0]] + items[1..];
    }
  }

  lemma {:induction false} PlacedDistinct(layout: map<string, Rect>, items: seq<Entry>)
    requires DistinctIds(items)
    ensures DistinctIds(Placed(layout, items))
  {
    if items != [] {
      var rest := items[1..];
      DistinctTail(items);
      PlacedDistinct(layout, rest);
      var pr := Placed(layout, rest);
      forall k | 0 <= k < |pr| ensures pr[k].id != items[0].id {
        TailIdsDiffer(items, pr[k]);
      }
      if items[0].id in layout {
        assert Placed(layout, items) == [items[0]] + pr;
        DistinctCons(items[0], pr);
      } else {
        assert Placed(layout, items) == pr;
      }
    }
  }

  lemma DistinctTail(items: seq<Entry>)
    requires items != [] && DistinctIds(items)
    ensures DistinctIds(items[1..])
  {
    var rest := items[1..];
    forall j, k | 0 <= j < k < |rest| ensures rest[j].id != rest[k].id {
      assert rest[j] == items[j + 1] && rest[k] == items[k + 1];
    }
  }

  lemma TailIdsDiffer(items: seq<Entry>, e: Entry)
    requires items != [] && DistinctIds(items)
    requires e in items[1..]
    ensures e.id != items[0].id
  {
    var m :| 0 <= m < |items[1..]| && items[1..][m] == e;
    assert items[m + 1] == e;
  }

  lemma DistinctCons(e: Entry, rest: seq<Entry>)
    requires DistinctIds(rest)
    requires forall k :: 0 <= k < |rest| ==> rest[k].id != e.id
    ensures DistinctIds([e] + rest)
  {
    var all := [e] + rest;
    forall j, k | 0 <= j < k < |all| ensures all[j].id != all[k].id {
      assert all[k] == rest[k - 1];
      if j > 0 {
        assert all[j] == rest[j - 1];
      }
    }
  }

  /** The whole card, laid out by the template: background first, then the
      slots. Every slot drawn is a slot of the template, and when entry ids
      are distinct, as object keys are, no two drawn slots overlap. */
  function Render(bg: Option<Photo>, items: seq<Entry>, measure: Measure): (f: Frame)
    ensures f.background == Background(bg)
    ensures |f.slots| <= |items|
    ensures var ps := Placed(Layout.Table, items);
            && |f.slots| == |ps|
            && forall k :: 0 <= k < |f.slots| ==> f.slots[k] == RenderSlot(Layout.Table[ps[k].id], ps[k].item, measure)
    ensures forall e :: e in items && e.id in Layout.Table ==>
              exists k :: 0 <= k < |f.slots| && f.slots[k] == RenderSlot(Layout.Table[e.id], e.item, measure)
    ensures forall k :: 0 <= k < |f.slots| ==> f.slots[k].clip in Layout.Table.Values
    ensures DistinctIds(items) ==>
              forall j, k :: 0 <= j < k < |f.slots| ==> Disjoint(f.slots[j].clip, f.slots[k].clip)
  {
    var slots := RenderItems(Layout.Table, items, measure);
    var ps := Placed(Layout.Table, items);
    RenderItemsDrawsPlaced(Layout.Table, items, measure);
    PlacedComplete(Layout.Table, items);
    assert forall k :: 0 <= k < |slots| ==> slots[k].clip == Layout.Table[ps[k].id];
    if DistinctIds(items) then
      PlacedDistinct(Layout.Table, items);
      Layout.TableDisjoint();
      assert forall j, k :: 0 <= j < k < |slots| ==> ps[j].id != ps[k].id;
      Frame(Background(bg), slots)
    else
      Frame(Background(bg), slots)
  }

  /** The starting card draws all thirteen slots, the title first. */
  lemma InitialCard(bg: Option<Photo>, measure: Measure)
    ensures var f := Render(bg, InitialItems, measure);
            && |f.slots| == 13
            && f.slots[0] == RenderSlot(Layout.Table["title"], InitialItems[0].item, measure)
  {
    InitialItemsMatchLayout();
    assert forall k :: 0 <= k < |InitialItems| ==> InitialItems[k].id in Ids(InitialItems);
    PlacedAll(Layout.Table, InitialItems);
  }

  /** The text "ABCDEFGHIJ", without line breaks, is one paragraph and wraps
      like it. */
  lemma ExampleLines()
    ensures WrapText("ABCDEFGHIJ", UniformWrap.TenPerChar, 76.0) == ["ABCDEFG", "HIJ"]
  {
    var p := "ABCDEFGHIJ";
    SplitNewlineFreePrefix(p, []);
    assert p + [] == p;
    assert Split(p) == [p];
    WrapAllSnoc([], p, UniformWrap.TenPerChar, 76.0);
    assert [] + [p] == [p];
    UniformWrap.WrapTenCharacters();
  }

  /** The worked example: a standard slot 100 pixels wide holding the text
      "ABCDEFGHIJ", measured at 10 pixels per character. The body is 76 pixels
      wide, so the text wraps after seven characters: "ABCDEFG" 36 pixels
      below the slot's top and "HIJ" 24 pixels further down, both 12 pixels
      in from its left edge. */
  lemma WorkedExample(r: Rect, item: Item)
    requires r.w == 100 && !item.isTitle && item.value == "ABCDEFGHIJ"
    ensures RenderSlot(r, item, UniformWrap.TenPerChar).cmds[3..]
            == [FillText("ABCDEFG", (r.x + 12) as real, (r.y + 36) as real, BodyText),
                FillText("HIJ", (r.x + 12) as real, (r.y + 60) as real, BodyText)]
  {
    assert Layout.MaxBodyWidth(r) == 76.0;
    ExampleLines();
    StandardSlotBody(r, item, UniformWrap.TenPerChar);
  }
}

=== FILE: text_wrap.dfy ===
/** Character-level greedy wrapping of a slot's body text.

    The text is cut at every newline into paragraphs. Each paragraph is read
    one character at a time into a line buffer; when appending the next
    character would make the buffer measure wider than the limit, and that
    character is not the paragraph's first, the buffer is emitted as a line
    and restarted with the character. Whatever remains at the end of the
    paragraph is emitted as its last line, even when it is empty. */
module TextWrap {

  /** Rendered width of a string in the body font. The font metrics belong to
      the host, so the model keeps the measure as an arbitrary function. */
  type Measure = string -> real

  const Newline: char := '\n'

  /** The lines glued back together, without separators. */
  function Concat(lines: seq<string>): string {
    if lines == [] then [] else lines[0] + Concat(lines[1..])
  }

  lemma {:induction false} ConcatAppend(a: seq<string>, b: seq<string>)
    ensures Concat(a + b) == Concat(a) + Concat(b)
  {
    if a == [] {
      assert a + b == b;
    } else {
      assert (a + b)[1..] == a[1..] + b;
      ConcatAppend(a[1..], b);
    }
  }

  /** `s` with every newline removed. */
  function StripNewlines(s: string): string {
    if s == [] then []
    else (if s[0] == Newline then [] else [s[0]]) + StripNewlines(s[1..])
  }

  /** Number of newlines in `s`. */
  function NewlineCount(s: string): nat {
    if s == [] then 0
    else (if s[0] == Newline then 1 else 0) + NewlineCount(s[1..])
  }

  // ---------------------------------------------------------------------
  // Paragraphs: splitting at newlines
  // ---------------------------------------------------------------------

  /** The paragraphs of `s`: the pieces between newlines, in order. As with
      splitting a string on a separator, an empty `s` has one empty
      paragraph and a trailing newline leaves an empty last paragraph. */
  function Split(s: string): (ps: seq<string>)
    ensures |ps| == NewlineCount(s) + 1
  {
    if s == [] then [[]]
    else
      var rest := Split(s[1..]);
      if s[0] == Newline then [[]] + rest
      else [[s[0]] + rest[0]] + rest[1..]
  }

  /** No paragraph contains a newline. */
  lemma {:induction false} SplitNewlineFree(s: string)
    ensures forall k :: 0 <= k < |Split(s)| ==> Newline !in Split(s)[k]
  {
    if s != [] {
      SplitNewlineFree(s[1..]);
      var rest := Split(s[1..]);
      if s[0] != Newline {
        assert Newline !in [s[0]] + rest[0];
      }
    }
  }

  /** The paragraphs put back together with a newline between each two. */
  function Join(ps: seq<string>): string
    requires |ps| >= 1
  {
    if |ps| == 1 then ps[0] else ps[0] + [Newline] + Join(ps[1..])
  }

  /** Joining the paragraphs of `s` gives back `s`. */
  lemma {:induction false} JoinSplit(s: string)
    ensures Join(Split(s)) == s
  {
    if s != [] {
      var rest := Split(s[1..]);
      JoinSplit(s[1..]);
      if s[0] == Newline {
        assert ([[]] + rest)[1..] == rest;
      } else if |rest| == 1 {
        assert Join(Split(s)) == [s[0]] + rest[0];
      } else {
        var ps := Split(s);
        assert ps[1..] == rest[1..];
        assert Join(rest) == rest[0] + [Newline] + Join(rest[1..]);
        assert Join(ps) == ([s[0]] + rest[0]) + [Newline] + Join(rest[1..]);
      }
    }
  }

  /** Splitting a newline-free `a` followed by `t` merges `a` into the first
      paragraph of `t`. */
  lemma {:induction false} SplitNewlineFreePrefix(a: string, t: string)
    requires Newline !in a
    ensures Split(a + t) == [a + Split(t)[0]] + Split(t)[1..]
  {
    if a != [] {
      assert (a + t)[1..] == a[1..] + t;
      SplitNewlineFreePrefix(a[1..], t);
      assert [a[0]] + (a[1..] + Split(t)[0]) == a + Split(t)[0];
    } else {
      var x := Split(t);
      assert a + t == t;
      assert a + x[0] == x[0];
      assert [x[0]] + x[1..] == x;
    }
  }

  /** A newline splits the text into the paragraphs before it and those after. */
  lemma {:induction false} SplitAtNewline(a: string, b: string)
    ensures Split(a + [Newline] + b) == Split(a) + Split(b)
  {
    if a == [] {
      SplitCons(Newline, b);
      assert a + [Newline] + b == [Newline] + b;
    } else {
      var c, a' := a[0], a[1..];
      var t := a' + [Newline] + b;
      assert a + [Newline] + b == [c] + t && a == [c] + a';
      SplitAtNewline(a', b);
      SplitCons(c, t);
      SplitCons(c, a');
      ConsAppend(c, Split(a'), Split(b));
    }
  }

  /** The two ways Split extends its recursive result commute with
      appending further paragraphs. */
  lemma ConsAppend(c: char, rest: seq<string>, tail: seq<string>)
    requires |rest| >= 1
    ensures [[c] + (rest + tail)[0]] + (rest + tail)[1..] == ([[c] + rest[0]] + rest[1..]) + tail
    ensures [[]] + (rest + tail) == ([[]] + rest) + tail
  {
    assert (rest + tail)[0] == rest[0];
    assert (rest + tail)[1..] == rest[1..] + tail;
  }

  /** Split of a text by its first character. */
  lemma SplitCons(c: char, t: string)
    ensures Split([c] + t) == if c == Newline then [[]] + Split(t)
                              else [[c] + Split(t)[0]] + Split(t)[1..]
  {
    assert ([c] + t)[1..] == t;
  }

  /** Splitting newline-free paragraphs joined by newlines gives them back. */
  lemma {:induction false} SplitJoin(ps: seq<string>)
    requires |ps| >= 1
    requires forall k :: 0 <= k < |ps| ==> Newline !in ps[k]
    ensures Split(Join(ps)) == ps
  {
    if |ps| == 1 {
      SplitNewlineFreePrefix(ps[0], []);
      assert ps[0] + [] == ps[0];
    } else {
      var tail := ps[1..];
      SplitJoin(tail);
      var t := [Newline] + Join(tail);
      assert Join(ps) == ps[0] + t;
      SplitNewlineFreePrefix(ps[0], t);
      assert t[1..] == Join(tail);
      assert Split(t) == [[]] + tail;
      assert Split(t)[0] == [] && Split(t)[1..] == tail;
      assert ps[0] + [] == ps[0];
      assert ps == [ps[0]] + tail;
    }
  }

  /** The paragraphs together hold exactly the text's non-newline characters. */
  lemma {:induction false} ConcatSplit(s: string)
    ensures Concat(Split(s)) == StripNewlines(s)
  {
    if s != [] {
      ConcatSplit(s[1..]);
      var rest := Split(s[1..]);
      if s[0] == Newline {
        assert ([[]] + rest)[1..] == rest;
      } else {
        var ps := Split(s);
        assert ps[1..] == rest[1..];
        assert Concat(rest) == rest[0] + Concat(rest[1..]);
      }
    }
  }

  // ---------------------------------------------------------------------
  // Wrapping one paragraph
  // ---------------------------------------------------------------------

  /** The wrapping loop over paragraph `p` from position `i` on, with `cur`
      in the line buffer: the lines it still emits. A line is broken only
      when the widened buffer measures more than `maxW` and `i` is not the
      paragraph's first position. */
  function WrapFrom(p: string, i: nat, cur: string, measure: Measure, maxW: real): (lines: seq<string>)
    requires i <= |p|
    ensures |lines| >= 1
    decreases |p| - i
  {
    if i == |p| then [cur]
    else
      var test := cur + [p[i]];
      if measure(test) > maxW && i > 0 then [cur] + WrapFrom(p, i + 1, [p[i]], measure, maxW)
      else WrapFrom(p, i + 1, test, measure, maxW)
  }

  /** One step of the loop that breaks the line. */
  lemma WrapFromBreaks(p: string, i: nat, cur: string, measure: Measure, maxW: real)
    requires i < |p| && measure(cur + [p[i]]) > maxW && i > 0
    ensures WrapFrom(p, i, cur, measure, maxW) == [cur] + WrapFrom(p, i + 1, [p[i]], measure, maxW)
  {
  }

  /** One step of the loop that extends the buffer. */
  lemma WrapFromExtends(p: string, i: nat, cur: string, measure: Measure, maxW: real)
    requires i < |p| && !(measure(cur + [p[i]]) > maxW && i > 0)
    ensures WrapFrom(p, i, cur, measure, maxW) == WrapFrom(p, i + 1, cur + [p[i]], measure, maxW)
  {
  }

  /** The loop loses, adds and reorders nothing: its lines glued together
      are the buffer followed by the rest of the paragraph. */
  lemma {:induction false} WrapFromConcat(p: string, i: nat, cur: string, measure: Measure, maxW: real)
    requires i <= |p|
    ensures Concat(WrapFrom(p, i, cur, measure, maxW)) == cur + p[i..]
    decreases |p| - i
  {
    if i == |p| {
      assert Concat([cur]) == cur + Concat([]);
    } else {
      var test := cur + [p[i]];
      assert p[i..] == [p[i]] + p[i + 1..];
      if measure(test) > maxW && i > 0 {
        WrapFromConcat(p, i + 1, [p[i]], measure, maxW);
        var rest := WrapFrom(p, i + 1, [p[i]], measure, maxW);
        assert ([cur] + rest)[1..] == rest;
      } else {
        WrapFromConcat(p, i + 1, test, measure, maxW);
      }
    }
  }

  /** The lines one paragraph wraps into: at least one, and together exactly
      the paragraph. */
  function WrapParagraph(p: string, measure: Measure, maxW: real): (lines: seq<string>)
    ensures |lines| >= 1
    ensures Concat(lines) == p
  {
    WrapFromConcat(p, 0, [], measure, maxW);
    WrapFrom(p, 0, [], measure, maxW)
  }

  /** A line that measures within the limit, or a single character that is
      too wide on its own and so is placed alone. */
  predicate Fits(line: string, measure: Measure, maxW: real) {
    |line| == 1 || measure(line) <= maxW
  }

  /** The state of the line buffer at position `i` of the loop: empty before
      the first character, afterwards non-empty and within the limit. */
  predicate BufferOk(i: nat, cur: string, measure: Measure, maxW: real) {
    if i == 0 then cur == [] else cur != [] && Fits(cur, measure, maxW)
  }

  /** Every line is non-empty and fits. */
  predicate AllFit(lines: seq<string>, measure: Measure, maxW: real) {
    forall k :: 0 <= k < |lines| ==> lines[k] != [] && Fits(lines[k], measure, maxW)
  }

  lemma {:induction false} WrapFromFits(p: string, i: nat, cur: string, measure: Measure, maxW: real)
    requires 0 < |p| && i <= |p|
    requires BufferOk(i, cur, measure, maxW)
    ensures AllFit(WrapFrom(p, i, cur, measure, maxW), measure, maxW)
    decreases |p| - i
  {
    if i == |p| {
      assert WrapFrom(p, i, cur, measure, maxW) == [cur];
    } else {
      var test := cur + [p[i]];
      if measure(test) > maxW && i > 0 {
        WrapFromFits(p, i + 1, [p[i]], measure, maxW);
        var rest := WrapFrom(p, i + 1, [p[i]], measure, maxW);
        var lines := [cur] + rest;
        assert WrapFrom(p, i, cur, measure, maxW) == lines;
        forall k | 0 <= k < |lines|
          ensures lines[k] != [] && Fits(lines[k], measure, maxW)
        {
          if k > 0 {
            assert lines[k] == rest[k - 1];
          }
        }
      } else {
        assert BufferOk(i + 1, test, measure, maxW);
        WrapFromFits(p, i + 1, test, measure, maxW);
        assert WrapFrom(p, i, cur, measure, maxW) == WrapFrom(p, i + 1, test, measure, maxW);
      }
    }
  }

  /** Width bound: every line of a non-empty paragraph is non-empty and fits,
      so no line is wider than the limit unless it is one character; an empty
      paragraph gives exactly one empty line. */
  lemma WrapParagraphBounds(p: string, measure: Measure, maxW: real)
    ensures p == [] ==> WrapParagraph(p, measure, maxW) == [[]]
    ensures p != [] ==> AllFit(WrapParagraph(p, measure, maxW), measure, maxW)
  {
    if p != [] {
      WrapFromFits(p, 0, [], measure, maxW);
    } else {
      assert WrapFrom(p, 0, [], measure, maxW) == [[]];
    }
  }

  /** Between lines k and k + 1 the break is greedy: the next line starts
      with a character that would have made line k overflow. */
  predicate GreedyBreak(lines: seq<string>, k: nat, measure: Measure, maxW: real)
    requires k + 1 < |lines|
  {
    lines[k + 1] != [] && measure(lines[k] + [lines[k + 1][0]]) > maxW
  }

  /** Every break between consecutive lines is greedy. */
  predicate Greedy(lines: seq<string>, measure: Measure, maxW: real) {
    forall k: nat :: k + 1 < |lines| ==> GreedyBreak(lines, k, measure, maxW)
  }

  /** The first line the loop emits starts with the buffer. */
  lemma {:induction false} WrapFromStartsWithBuffer(p: string, i: nat, cur: string, measure: Measure, maxW: real)
    requires i <= |p|
    ensures cur <= WrapFrom(p, i, cur, measure, maxW)[0]
    decreases |p| - i
  {
    if i < |p| {
      var test := cur + [p[i]];
      if !(measure(test) > maxW && i > 0) {
        WrapFromStartsWithBuffer(p, i + 1, test, measure, maxW);
        var first := WrapFrom(p, i + 1, test, measure, maxW)[0];
        assert first[..|cur|] == test[..|cur|] == cur;
      }
    }
  }

  lemma {:induction false} WrapFromGreedy(p: string, i: nat, cur: string, measure: Measure, maxW: real)
    requires i <= |p|
    ensures Greedy(WrapFrom(p, i, cur, measure, maxW), measure, maxW)
    decreases |p| - i
  {
    if i < |p| {
      var test := cur + [p[i]];
      if measure(test) > maxW && i > 0 {
        var rest := WrapFrom(p, i + 1, [p[i]], measure, maxW);
        WrapFromGreedy(p, i + 1, [p[i]], measure, maxW);
        WrapFromStartsWithBuffer(p, i + 1, [p[i]], measure, maxW);
        var lines := [cur] + rest;
        assert rest[0][..1] == [p[i]];
        forall k: nat | k + 1 < |lines| ensures GreedyBreak(lines, k, measure, maxW) {
          if k > 0 {
            assert GreedyBreak(rest, k - 1, measure, maxW);
          }
        }
      } else {
        WrapFromGreedy(p, i + 1, test, measure, maxW);
      }
    }
  }

  /** The loop breaks a line only when the next character would make it
      measure more than the limit, and starts the next line with that
      character. */
  lemma WrapParagraphGreedy(p: string, measure: Measure, maxW: real)
    ensures Greedy(WrapParagraph(p, measure, maxW), measure, maxW)
  {
    WrapFromGreedy(p, 0, [], measure, maxW);
  }

  /** No line holds a prefix of two or more characters that measures more
      than the limit: the loop never keeps a tentative line that overflows. */
  predicate PrefixesFit(lines: seq<string>, measure: Measure, maxW: real) {
    forall k, j :: 0 <= k < |lines| && 2 <= j <= |lines[k]| ==> measure(lines[k][..j]) <= maxW
  }

  /** Every prefix of the buffer of two or more characters is within the
      limit. */
  predicate BufferPrefixesFit(cur: string, measure: Measure, maxW: real) {
    forall j :: 2 <= j <= |cur| ==> measure(cur[..j]) <= maxW
  }

  lemma {:induction false} WrapFromPrefixesFit(p: string, i: nat, cur: string, measure: Measure, maxW: real)
    requires i <= |p|
    requires i == 0 ==> cur == []
    requires BufferPrefixesFit(cur, measure, maxW)
    ensures PrefixesFit(WrapFrom(p, i, cur, measure, maxW), measure, maxW)
    decreases |p| - i
  {
    if i == |p| {
      assert WrapFrom(p, i, cur, measure, maxW) == [cur];
    } else {
      var test := cur + [p[i]];
      if measure(test) > maxW && i > 0 {
        WrapFromBreaks(p, i, cur, measure, maxW);
        WrapFromPrefixesFit(p, i + 1, [p[i]], measure, maxW);
        var rest := WrapFrom(p, i + 1, [p[i]], measure, maxW);
        var lines := [cur] + rest;
        forall k, j | 0 <= k < |lines| && 2 <= j <= |lines[k]|
          ensures measure(lines[k][..j]) <= maxW
        {
          if k > 0 {
            assert lines[k] == rest[k - 1];
          }
        }
      } else {
        forall j | 2 <= j <= |test| ensures measure(test[..j]) <= maxW {
          if j < |test| {
            assert test[..j] == cur[..j];
          } else {
            assert test[..j] == test;
          }
        }
        WrapFromExtends(p, i, cur, measure, maxW);
        WrapFromPrefixesFit(p, i + 1, test, measure, maxW);
      }
    }
  }

  /** The converse of the greedy break: a line is never extended past the
      limit, not even in a prefix, unless it starts a paragraph with a single
      over-wide character. */
  lemma WrapParagraphPrefixesFit(p: string, measure: Measure, maxW: real)
    ensures PrefixesFit(WrapParagraph(p, measure, maxW), measure, maxW)
  {
    WrapFromPrefixesFit(p, 0, [], measure, maxW);
  }

  /** Every line is non-empty. */
  predicate NoEmptyLine(lines: seq<string>) {
    forall k :: 0 <= k < |lines| ==> lines[k] != []
  }

  /** A greedy line list: no empty line, every break forced by overflow, and
      no line overflowing in any prefix. */
  predicate GreedyLines(lines: seq<string>, measure: Measure, maxW: real) {
    NoEmptyLine(lines) && Greedy(lines, measure, maxW) && PrefixesFit(lines, measure, maxW)
  }

  /** The tail of a greedy line list is greedy. */
  lemma GreedyLinesTail(lines: seq<string>, measure: Measure, maxW: real)
    requires lines != [] && GreedyLines(lines, measure, maxW)
    ensures GreedyLines(lines[1..], measure, maxW)
  {
    var t := lines[1..];
    forall k: nat | k + 1 < |t| ensures GreedyBreak(t, k, measure, maxW) {
      assert GreedyBreak(lines, k + 1, measure, maxW);
    }
    forall k, j | 0 <= k < |t| && 2 <= j <= |t[k]| ensures measure(t[k][..j]) <= maxW {
      assert t[k] == lines[k + 1];
    }
  }

  /** Lines without an empty one glue to the empty string only when there
      are none. */
  lemma ConcatEmpty(lines: seq<string>)
    requires NoEmptyLine(lines)
    ensures Concat(lines) == [] <==> lines == []
  {
    if lines != [] {
      assert Concat(lines) == lines[0] + Concat(lines[1..]);
    }
  }

  /** The first line is a prefix of the glued lines, and in a line list
      whose prefixes fit, so is every prefix of it of two or more
      characters. */
  lemma FirstLinePrefixesFit(lines: seq<string>, measure: Measure, maxW: real)
    requires lines != [] && PrefixesFit(lines, measure, maxW)
    ensures |lines[0]| <= |Concat(lines)| && lines[0] == Concat(lines)[..|lines[0]|]
    ensures forall j :: 2 <= j <= |lines[0]| ==> measure(Concat(lines)[..j]) <= maxW
  {
    var s := Concat(lines);
    assert s == lines[0] + Concat(lines[1..]);
    forall j | 2 <= j <= |lines[0]| ensures measure(s[..j]) <= maxW {
      assert s[..j] == lines[0][..j];
    }
  }

  /** At a greedy break after the first line, the glued lines' prefix one
      character past the first line overflows. */
  lemma FirstBreakOverflows(lines: seq<string>, measure: Measure, maxW: real)
    requires |lines| >= 2 && GreedyLines(lines, measure, maxW)
    ensures |lines[0]| < |Concat(lines)|
    ensures measure(Concat(lines)[..|lines[0]| + 1]) > maxW
  {
    var s, n := Concat(lines), |lines[0]|;
    assert s == lines[0] + Concat(lines[1..]);
    assert Concat(lines[1..]) == lines[1] + Concat(lines[2..]);
    assert lines[1] != [];
    assert GreedyBreak(lines, 0, measure, maxW);
    assert s[..n + 1] == lines[0] + [lines[1][0]];
  }

  /** Over the same characters, a greedy line list's first line is at least
      as long as that of any other greedy line list: `a`'s first break is
      forced by an overflowing prefix, which `b`'s first line cannot hold. */
  lemma GreedyFirstLineNotShorter(a: seq<string>, b: seq<string>, measure: Measure, maxW: real)
    requires a != [] && b != [] && Concat(a) == Concat(b)
    requires GreedyLines(a, measure, maxW) && GreedyLines(b, measure, maxW)
    ensures |a[0]| >= |b[0]|
  {
    FirstLinePrefixesFit(b, measure, maxW);
    if |a| == 1 {
      assert Concat(a) == a[0] + Concat([]);
    } else {
      FirstBreakOverflows(a, measure, maxW);
    }
  }

  /** A greedy line list is determined by its characters: two greedy line
      lists that glue to the same string are equal. */
  lemma {:induction false} GreedyLinesUnique(a: seq<string>, b: seq<string>, measure: Measure, maxW: real)
    requires Concat(a) == Concat(b)
    requires GreedyLines(a, measure, maxW) && GreedyLines(b, measure, maxW)
    ensures a == b
    decreases |a|
  {
    ConcatEmpty(a);
    ConcatEmpty(b);
    if a != [] && b != [] {
      GreedyFirstLineNotShorter(a, b, measure, maxW);
      GreedyFirstLineNotShorter(b, a, measure, maxW);
      var s := Concat(a);
      assert s == a[0] + Concat(a[1..]) == b[0] + Concat(b[1..]);
      assert a[0] == s[..|a[0]|] == b[0];
      assert Concat(a[1..]) == s[|a[0]|..] == Concat(b[1..]);
      GreedyLinesTail(a, measure, maxW);
      GreedyLinesTail(b, measure, maxW);
      GreedyLinesUnique(a[1..], b[1..], measure, maxW);
      assert a == [a[0]] + a[1..] && b == [b[0]] + b[1..];
    }
  }

  /** The wrap of a non-empty paragraph is its one greedy line list: any
      list of lines that glues to the paragraph, has no empty line, breaks
      only on overflow and never overflows in a prefix is exactly what the
      loop emits. */
  lemma WrapParagraphIsUniqueGreedy(p: string, lines: seq<string>, measure: Measure, maxW: real)
    requires p != []
    ensures GreedyLines(WrapParagraph(p, measure, maxW), measure, maxW)
    ensures Concat(lines) == p && GreedyLines(lines, measure, maxW) ==> lines == WrapParagraph(p, measure, maxW)
  {
    var w := WrapParagraph(p, measure, maxW);
    WrapParagraphBounds(p, measure, maxW);
    WrapParagraphGreedy(p, measure, maxW);
    WrapParagraphPrefixesFit(p, measure, maxW);
    assert NoEmptyLine(w);
    if Concat(lines) == p && GreedyLines(lines, measure, maxW) {
      GreedyLinesUnique(lines, w, measure, maxW);
    }
  }

  /** The same loop with the break guard phrased on the buffer: break when
      the buffer is non-empty, rather than when the position is not 0. */
  function WrapFromBuffer(p: string, i: nat, cur: string, measure: Measure, maxW: real): seq<string>
    requires i <= |p|
    decreases |p| - i
  {
    if i == |p| then [cur]
    else
      var test := cur + [p[i]];
      if measure(test) > maxW && cur != [] then [cur] + WrapFromBuffer(p, i + 1, [p[i]], measure, maxW)
      else WrapFromBuffer(p, i + 1, test, measure, maxW)
  }

  /** The position guard `i > 0` and "the buffer is non-empty" agree in every
      state the loop reaches, so both phrasings wrap alike. */
  lemma {:induction false} GuardIsNonEmptyBuffer(p: string, i: nat, cur: string, measure: Measure, maxW: real)
    requires i <= |p|
    requires i == 0 <==> cur == []
    ensures WrapFrom(p, i, cur, measure, maxW) == WrapFromBuffer(p, i, cur, measure, maxW)
    decreases |p| - i
  {
    if i < |p| {
      var test := cur + [p[i]];
      if measure(test) > maxW && i > 0 {
        GuardIsNonEmptyBuffer(p, i + 1, [p[i]], measure, maxW);
      } else {
        GuardIsNonEmptyBuffer(p, i + 1, test, measure, maxW);
      }
    }
  }

  // ---------------------------------------------------------------------
  // Wrapping a whole text
  // ---------------------------------------------------------------------

  /** The lines of the paragraphs `ps`, wrapped one after the other. */
  function WrapAll(ps: seq<string>, measure: Measure, maxW: real): (lines: seq<string>)
    ensures |lines| >= |ps|
  {
    if ps == [] then []
    else WrapAll(ps[..|ps| - 1], measure, maxW) + WrapParagraph(ps[|ps| - 1], measure, maxW)
  }

  /** Wrapping paragraphs keeps their characters, in order. */
  lemma {:induction false} WrapAllConcat(ps: seq<string>, measure: Measure, maxW: real)
    ensures Concat(WrapAll(ps, measure, maxW)) == Concat(ps)
  {
    if ps != [] {
      var init, last := ps[..|ps| - 1], ps[|ps| - 1];
      WrapAllConcat(init, measure, maxW);
      ConcatAppend(WrapAll(init, measure, maxW), WrapParagraph(last, measure, maxW));
      ConcatAppend(init, [last]);
      assert ps == init + [last];
      assert Concat([last]) == last + Concat([]);
    }
  }

  /** The last paragraph's lines come last. */
  lemma WrapAllSnoc(ps: seq<string>, last: string, measure: Measure, maxW: real)
    ensures WrapAll(ps + [last], measure, maxW) == WrapAll(ps, measure, maxW) + WrapParagraph(last, measure, maxW)
  {
    var qs := ps + [last];
    assert qs[..|qs| - 1] == ps;
    assert qs[|qs| - 1] == last;
  }

  lemma {:induction false} WrapAllAppend(a: seq<string>, b: seq<string>, measure: Measure, maxW: real)
    ensures WrapAll(a + b, measure, maxW) == WrapAll(a, measure, maxW) + WrapAll(b, measure, maxW)
    decreases |b|
  {
    if b == [] {
      assert a + b == a;
      assert WrapAll(b, measure, maxW) == [];
    } else {
      var b', last := b[..|b| - 1], b[|b| - 1];
      var front, middle, back := WrapAll(a, measure, maxW), WrapAll(b', measure, maxW), WrapParagraph(last, measure, maxW);
      calc {
        WrapAll(a + b, measure, maxW);
      == { assert a + b == (a + b') + [last]; WrapAllSnoc(a + b', last, measure, maxW); }
        WrapAll(a + b', measure, maxW) + back;
      == { WrapAllAppend(a, b', measure, maxW); }
        (front + middle) + back;
      == { AppendAssoc(front, middle, back); }
        front + (middle + back);
      == { assert b == b' + [last]; WrapAllSnoc(b', last, measure, maxW); }
        front + WrapAll(b, measure, maxW);
      }
    }
  }

  lemma AppendAssoc(x: seq<string>, y: seq<string>, z: seq<string>)
    ensures (x + y) + z == x + (y + z)
  {
  }

  /** All body lines of a text value: its paragraphs wrapped in order. The
      lines hold the text's characters in order, less its newlines, and there
      is at least one line per paragraph. */
  function WrapText(value: string, measure: Measure, maxW: real): (lines: seq<string>)
    ensures |lines| >= NewlineCount(value) + 1
    ensures Concat(lines) == StripNewlines(value)
  {
    ConcatSplit(value);
    WrapAllConcat(Split(value), measure, maxW);
    WrapAll(Split(value), measure, maxW)
  }

  /** An empty text wraps into a single empty line. */
  lemma WrapEmptyText(measure: Measure, maxW: real)
    ensures WrapText([], measure, maxW) == [[]]
  {
    var ps: seq<string> := [[]];
    assert Split([]) == ps;
    WrapAllSnoc([], [], measure, maxW);
    assert [] + [[]] == ps;
    WrapParagraphBounds([], measure, maxW);
  }

  /** Paragraphs are wrapped independently: the lines of a text with a
      newline are the lines of the part before it followed by the lines of
      the part after it. */
  lemma WrapTextAtNewline(a: string, b: string, measure: Measure, maxW: real)
    ensures WrapText(a + [Newline] + b, measure, maxW) == WrapText(a, measure, maxW) + WrapText(b, measure, maxW)
  {
    SplitAtNewline(a, b);
    WrapAllAppend(Split(a), Split(b), measure, maxW);
  }

  /** Every line is empty or fits. */
  predicate AllFitOrEmpty(lines: seq<string>, measure: Measure, maxW: real) {
    forall k :: 0 <= k < |lines| ==> lines[k] == [] || Fits(lines[k], measure, maxW)
  }

  lemma {:induction false} WrapAllFits(ps: seq<string>, measure: Measure, maxW: real)
    ensures AllFitOrEmpty(WrapAll(ps, measure, maxW), measure, maxW)
  {
    if ps != [] {
      var init, last := ps[..|ps| - 1], ps[|ps| - 1];
      WrapAllFits(init, measure, maxW);
      WrapParagraphBounds(last, measure, maxW);
      var a, b := WrapAll(init, measure, maxW), WrapParagraph(last, measure, maxW);
      assert WrapAll(ps, measure, maxW) == a + b;
      forall k | 0 <= k < |a + b|
        ensures (a + b)[k] == [] || Fits((a + b)[k], measure, maxW)
      {
        if k >= |a| {
          assert (a + b)[k] == b[k - |a|];
        } else {
          assert (a + b)[k] == a[k];
        }
      }
    }
  }

  /** Width bound over a whole text: each line is empty (an empty paragraph)
      or fits. */
  lemma WrapTextFits(value: string, measure: Measure, maxW: real)
    ensures AllFitOrEmpty(WrapText(value, measure, maxW), measure, maxW)
  {
    WrapAllFits(Split(value), measure, maxW);
  }

  /** The index of each paragraph's first line among the lines of `ps`. */
  function FirstLines(ps: seq<string>, measure: Measure, maxW: real): (starts: seq<nat>)
    ensures |starts| == |ps|
    ensures forall j :: 0 <= j < |ps| ==> starts[j] < |WrapAll(ps, measure, maxW)|
  {
    if ps == [] then []
    else FirstLines(ps[..|ps| - 1], measure, maxW) + [|WrapAll(ps[..|ps| - 1], measure, maxW)|]
  }

  lemma {:induction false} WrapAllGreedy(ps: seq<string>, measure: Measure, maxW: real)
    ensures forall k: nat :: k + 1 < |WrapAll(ps, measure, maxW)| && k + 1 !in FirstLines(ps, measure, maxW) ==>
              GreedyBreak(WrapAll(ps, measure, maxW), k, measure, maxW)
  {
    if ps != [] {
      var init, last := ps[..|ps| - 1], ps[|ps| - 1];
      WrapAllGreedy(init, measure, maxW);
      WrapParagraphGreedy(last, measure, maxW);
      var a, b := WrapAll(init, measure, maxW), WrapParagraph(last, measure, maxW);
      var lines, starts := a + b, FirstLines(ps, measure, maxW);
      assert lines == WrapAll(ps, measure, maxW);
      assert starts == FirstLines(init, measure, maxW) + [|a|];
      forall k: nat | k + 1 < |lines| && k + 1 !in starts
        ensures GreedyBreak(lines, k, measure, maxW)
      {
        assert k + 1 != |a|;
        if k + 1 < |a| {
          assert GreedyBreak(a, k, measure, maxW);
          assert lines[k] == a[k] && lines[k + 1] == a[k + 1];
        } else {
          assert GreedyBreak(b, k - |a|, measure, maxW);
          assert lines[k] == b[k - |a|] && lines[k + 1] == b[k + 1 - |a|];
        }
      }
    }
  }

  /** Over a whole text, every break is greedy except where a new paragraph
      starts, and there is one such start per paragraph. */
  lemma WrapTextGreedy(value: string, measure: Measure, maxW: real)
    ensures |FirstLines(Split(value), measure, maxW)| == NewlineCount(value) + 1
    ensures forall k: nat :: k + 1 < |WrapText(value, measure, maxW)| && k + 1 !in FirstLines(Split(value), measure, maxW) ==>
              GreedyBreak(WrapText(value, measure, maxW), k, measure, maxW)
  {
    var ps := Split(value);
    WrapAllGreedy(ps, measure, maxW);
    assert WrapText(value, measure, maxW) == WrapAll(ps, measure, maxW);
  }

  lemma {:induction false} WrapAllPrefixesFit(ps: seq<string>, measure: Measure, maxW: real)
    ensures PrefixesFit(WrapAll(ps, measure, maxW), measure, maxW)
  {
    if ps != [] {
      var init, last := ps[..|ps| - 1], ps[|ps| - 1];
      WrapAllPrefixesFit(init, measure, maxW);
      WrapParagraphPrefixesFit(last, measure, maxW);
      var a, b := WrapAll(init, measure, maxW), WrapParagraph(last, measure, maxW);
      var lines := a + b;
      assert lines == WrapAll(ps, measure, maxW);
      forall k, j | 0 <= k < |lines| && 2 <= j <= |lines[k]|
        ensures measure(lines[k][..j]) <= maxW
      {
        if k < |a| {
          assert lines[k] == a[k];
        } else {
          assert lines[k] == b[k - |a|];
        }
      }
    }
  }

  /** Over a whole text, no line overflows in any prefix of two or more
      characters. */
  lemma WrapTextPrefixesFit(value: string, measure: Measure, maxW: real)
    ensures PrefixesFit(WrapText(value, measure, maxW), measure, maxW)
  {
    WrapAllPrefixesFit(Split(value), measure, maxW);
  }
}

=== FILE: uniform_wrap.dfy ===
/** Wrapping under a measure where every character has the same width: the
    greedy loop then cuts each paragraph into equal runs of characters. */
module UniformWrap {
  import opened TextWrap

  /** `p` cut into runs of `c` characters; the last run holds what is left
      and is never empty unless `p` is. */
  function Chunks(p: string, c: nat): (pieces: seq<string>)
    requires c >= 1
    ensures Concat(pieces) == p
    ensures p == [] ==> |pieces| == 1
    ensures p != [] ==> (|pieces| - 1) * c < |p| <= |pieces| * c
    decreases |p|
  {
    if |p| <= c then
      assert Concat([p]) == p + Concat([]);
      [p]
    else
      var rest := Chunks(p[c..], c);
      assert ([p[..c]] + rest)[1..] == rest;
      assert p == p[..c] + p[c..];
      assert (|rest| + 1) * c == |rest| * c + c;
      [p[..c]] + rest
  }

  /** Strings of two or more characters fit exactly when they have at most
      `c` characters. A single character is placed whatever its width, so
      `c` is 1 when not even two characters fit. */
  ghost predicate Capacity(measure: Measure, maxW: real, c: nat) {
    c >= 1 && forall s: string :: |s| >= 2 ==> (measure(s) <= maxW <==> |s| <= c)
  }

  lemma {:induction false} WrapFromUniform(p: string, i: nat, cur: string, measure: Measure, maxW: real, c: nat)
    requires Capacity(measure, maxW, c)
    requires 1 <= i <= |p|
    requires 1 <= |cur| <= c
    ensures WrapFrom(p, i, cur, measure, maxW) == Chunks(cur + p[i..], c)
    decreases |p| - i
  {
    if i == |p| {
      assert cur + p[i..] == cur;
      assert WrapFrom(p, i, cur, measure, maxW) == [cur];
    } else {
      var test := cur + [p[i]];
      assert test + p[i + 1..] == cur + p[i..];
      if |cur| < c {
        assert measure(test) <= maxW;
        WrapFromUniform(p, i + 1, test, measure, maxW, c);
        assert WrapFrom(p, i, cur, measure, maxW) == WrapFrom(p, i + 1, test, measure, maxW);
      } else {
        assert measure(test) > maxW;
        WrapFromUniform(p, i + 1, [p[i]], measure, maxW, c);
        assert WrapFrom(p, i, cur, measure, maxW) == [cur] + WrapFrom(p, i + 1, [p[i]], measure, maxW);
        assert [p[i]] + p[i + 1..] == p[i..];
        var whole := cur + p[i..];
        assert whole[..c] == cur && whole[c..] == p[i..];
        assert Chunks(whole, c) == [cur] + Chunks(p[i..], c);
      }
    }
  }

  /** With a uniform measure, a paragraph wraps into runs of exactly `c`
      characters with a shorter last run: the greedy loop leaves no line
      short of the limit except the last. */
  lemma UniformWrapParagraph(p: string, measure: Measure, maxW: real, c: nat)
    requires Capacity(measure, maxW, c)
    ensures WrapParagraph(p, measure, maxW) == Chunks(p, c)
  {
    if p == [] {
      WrapParagraphBounds(p, measure, maxW);
    } else {
      WrapFromUniform(p, 1, [p[0]], measure, maxW, c);
      assert [p[0]] + p[1..] == p;
      assert WrapFrom(p, 0, [], measure, maxW) == WrapFrom(p, 1, [] + [p[0]], measure, maxW);
      assert [] + [p[0]] == [p[0]];
    }
  }

  /** A paragraph of n > 0 equal-width characters wraps into ceil(n / c)
      lines, where c is how many of them fit in a line: the number of lines
      L is the one with (L - 1) * c < n <= L * c. */
  lemma UniformLineCount(p: string, measure: Measure, maxW: real, c: nat)
    requires Capacity(measure, maxW, c)
    requires p != []
    ensures var n := |WrapParagraph(p, measure, maxW)|; (n - 1) * c < |p| <= n * c
  {
    UniformWrapParagraph(p, measure, maxW, c);
  }

  /** A measure of 10 pixels per character. */
  function TenPerChar(s: string): real {
    |s| as real * 10.0
  }

  /** At 10 pixels a character, 7 characters fit in 76 pixels and 8 do not. */
  lemma TenPerCharCapacity()
    ensures Capacity(TenPerChar, 76.0, 7)
  {
    forall s: string | |s| >= 2
      ensures TenPerChar(s) <= 76.0 <==> |s| <= 7
    {
      if |s| <= 7 {
        assert |s| as real <= 7.0;
      } else {
        assert |s| as real >= 8.0;
      }
    }
  }

  /** Ten characters at 10 pixels each in a 76-pixel line wrap after the
      seventh character. */
  lemma WrapTenCharacters()
    ensures WrapParagraph("ABCDEFGHIJ", TenPerChar, 76.0) == ["ABCDEFG", "HIJ"]
  {
    TenPerCharCapacity();
    UniformWrapParagraph("ABCDEFGHIJ", TenPerChar, 76.0, 7);
    var p := "ABCDEFGHIJ";
    assert p[..7] == "ABCDEFG" && p[7..] == "HIJ";
  }

  /** Fifteen such characters take three lines, ceil(15 / 7): the count
      follows the characters that fit on a line. */
  lemma WrapFifteenCharacters()
    ensures |WrapParagraph("ABCDEFGHIJKLMNO", TenPerChar, 76.0)| == 3
  {
    TenPerCharCapacity();
    UniformLineCount("ABCDEFGHIJKLMNO", TenPerChar, 76.0, 7);
  }
}
